=== FILE: README.md ===
# Nosto category merchandising for Magento 2 — a Dafny model

This project models the core of the Nosto CMP (category merchandising) plugin
for Magento 2. The plugin has four parts:

- **Facet building** (`BuildWebFacetService`). It turns the layered-navigation
  filters that are active on a category page into Nosto include filters:
  price range, categories, brands and custom fields.
- **Request assembly** (`RequestParamsService`, and the identical private copy
  inside `StateAwareCategoryService`). It checks the account and its GraphQL
  capability and picks the customer id, either from the cookie or from a new
  session. It sanitises the page-size limit, reads the preview cookie and
  reuses the stored batch token when the page and the limit match.
- **The stateful category service** (`StateAwareCategoryService`). It runs the
  remote category-merchandising call, dispatches the post-results event and
  remembers the result and the limit the caller asked for.
- **The toolbar plugin** (`Toolbar::afterSetCollection`). Once per request, on
  a category page sorted by the CMP order with the MySQL engine, it rewrites
  the product collection's select. The select becomes
  `ORDER BY FIELD(e.entity_id, reversed ids) DESC`, restricted to
  `e.entity_id IN (ids)`.

Files:

- `php_value.dfy` (module `PhpValue`). The slice of PHP 8 semantics the plugin
  relies on: a value universe, `(bool)` casts, `is_numeric`, `is_scalar`,
  loose `==` against an integer, the `<=>` ordering of integers and strings,
  the coercion of a value returned from a function declared `: int`, and
  `strtolower`.
- `facets.dfy` (module `Facets`). The include-filter bag as a value, and the
  functions that specify each step. The class `BuildWebFacetService` holds
  the lazily cached brand code. Its methods `MapValueToFilter`,
  `MapIncludeFilter`, `PopulateFilters` (the loop) and `GetFacets` are each
  proved against those functions.
- `facet_laws.dfy` (module `FacetLaws`). Properties of facet building: list
  coercion, the dispatch order of the switch, skipped items, and
  stop-at-first-exception with the partial bag kept.
- `request_params.dfy` (module `RequestParams`). `SanitizeLimit`,
  `BatchToken` and `CreateRequestParams`, with their laws. The two PHP copies
  of `createRequestParams` and `sanitizeLimit` have the same body. One
  definition models both, and the table cites each copy where it is used.
  The copies reach the batch model and the new session through different
  collaborator classes. The model's `StoreContext` stands for what those
  collaborators answer, so the two copies build the same request only where
  their collaborators answer alike.
- `recommendation.dfy` (module `Recommendation`). The class
  `StateAwareCategoryService`, with `lastResult` and `lastUsedLimit`. Two
  ghost logs record the dispatched post-results events and the callers' raw
  limits. The remote call is a function parameter.
- `toolbar.dfy` (module `Toolbar`). The select (order and where parts), the
  product collection and the toolbar plugin class. The static `$isProcessed`
  flag is a field of the plugin object. MySQL `FIELD()` is modelled, and one
  theorem covers a full page: for a ranking without duplicate ids, when every
  ranked id has a row, `ORDER BY FIELD(id, reverse(ids)) DESC` returns the
  rows exactly in ranking order. `FIELD` takes the first match in the
  reversed list, so an id the ranking repeats sorts at its last ranked
  position.

Where the code and its documented intent differ, the model follows the code:

- `sanitizeLimit` lets negative limits through. Only non-numeric values,
  values above the maximum and the integer `0` are replaced. The string `"0"`
  passes, because the test is `=== 0`.
- `$category == null` and `$this->brand == null` are loose comparisons. An
  empty category path is skipped like a missing one, and an empty cached
  brand code is fetched again.
- `case $this->brand:` compares loosely. While the brand code is null, the
  attribute code `""` matches the brand case.
- A category filter whose category does not exist raises
  `NoSuchEntityException` from the repository. That exception ends the
  whole filter loop, and is caught only in `getFacets`. The filters mapped
  before it are kept; every later filter is lost.
- The price case takes PHP's own `min` and `max` of the filter value. An
  open-ended range such as `['200', '']` (from "200 and above") is compared
  as strings, because `''` is not numeric. It yields the pair `('', '200')`,
  not a lower bound of 200.
- On PHP 8, `min` and `max` of a non-array or an empty array raise
  `TypeError` or `ValueError`. These are `Error`s, which
  `catch (Exception $e)` in `getFacets` and in `afterSetCollection` does not
  catch. The model lets them escape both, so the toolbar's processed flag
  stays unset.

Collaborators the model cannot see are inputs:

- A `StoreContext` holds the account lookup, the customer and preview
  cookies, the session service outcome, the maximum limit, the current
  category path and the stored batch model.
- A function `Value -> CategoryName` stands for the category repository and
  builder.
- A `RemoteCall` function stands for the GraphQL operation.
- A `PageContext` holds the search engine, the sort order, the action name
  and the page number.

## Model

| member | source | states |
|---|---|---|
| PhpValue.ToLower | Model/Service/Facet/BuildWebFacetService.php:235 | strtolower keeps the length and lowers each ASCII capital, leaving every other character |
| PhpValue.CastToBool | Model/Service/Facet/BuildWebFacetService.php:240 | `(bool)` is false exactly for integer 0, `''` and `'0'` among these cases; a non-zero integer string is true, and so is `'00'` although it denotes 0 |
| PhpValue.IntegerStringRoundTrip | Model/Service/Facet/BuildWebFacetService.php:237 | the text PHP prints for an integer is `is_numeric` and denotes that integer again |
| PhpValue.LooseEqualsIntOnNumbers | Model/Service/Recommendation/StateAwareCategoryService.php:248-250 | for a numeric value, PHP's loose `==` against an integer holds exactly when the value denotes that integer |
| PhpValue.LooseEqualsIntOnOthers | Model/Service/Recommendation/StateAwareCategoryService.php:248-250 | against non-numbers, loose `==` treats null as 0 and booleans as truth, and never holds for non-numeric text or arrays |
| PhpValue.Compare | Model/Service/Facet/BuildWebFacetService.php:237 | `<=>` between integers and strings is -1, 0 or 1, and for two numbers it orders them by their numeric value |
| PhpValue.CompareAntisymmetric | Model/Service/Facet/BuildWebFacetService.php:237 | swapping the operands of `<=>` flips its sign, including for string comparisons |
| PhpValue.CoerceToInt | Model/Service/Recommendation/StateAwareCategoryService.php:343-346 | the `int` return type keeps numbers as their value, turns booleans into 1/0, and raises TypeError for null, arrays, objects and non-numeric text |
| PhpValue.CoerceToIntRoundTrip | Model/Service/Recommendation/StateAwareCategoryService.php:343-346 | an integer, or its printed text, is returned as that integer |
| Facets.MakeArrayFromValue | Model/Service/Facet/BuildWebFacetService.php:262-279 | strings and numbers become one-element lists, booleans become ["Yes"]/["No"], arrays pass unchanged, null and objects raise FacetValueException carrying the name and value; a non-array never yields a boolean element |
| Facets.MinOf | Model/Service/Facet/BuildWebFacetService.php:237 | `min` (the running minimum replaced by each later element it compares above) returns an element of the array, and for numbers the least one |
| Facets.MaxOf | Model/Service/Facet/BuildWebFacetService.php:237 | `max` returns an element of the array, and for numbers the greatest one |
| Facets.PriceOf | Model/Service/Facet/BuildWebFacetService.php:237 | for a non-empty array of integers and strings the range is (min, max), both taken from the array, with min ≤ max for numbers |
| Facets.RefreshBrand | Model/Service/Facet/BuildWebFacetService.php:231-233 | a configured cached brand code is kept; otherwise the fetched one is taken; it is configured afterwards iff either of them is |
| Facets.RefreshBrandIdempotent | Model/Service/Facet/BuildWebFacetService.php:231-233 | refreshing the brand code a second time changes nothing |
| Facets.ApplyValue | Model/Service/Facet/BuildWebFacetService.php:235-252 | only the price case fails with a price error, and any other code fails only with FacetValueException for null or objects; each case changes only its own part of the bag (price and category leave custom fields and brands alone, new leaves brands alone, the brand case leaves custom fields alone), and custom fields keep every other key |
| Facets.ValueForInput | Model/Service/Facet/BuildWebFacetService.php:181-198 | exactly price, select, multiselect, date and boolean inputs give a value; date and boolean give a scalar |
| Facets.Resolve | Model/Service/Facet/BuildWebFacetService.php:150-206 | a category filter raises NoSuchCategory iff its category does not exist, and maps to ("category", path) iff the path is non-empty; nothing else raises |
| Facets.ApplyItem | Model/Service/Facet/BuildWebFacetService.php:150-206 | a skipped item leaves the bag as it is; NoSuchCategory arises iff the item is a category filter for a missing category; custom fields are never removed |
| Facets.Populate | Model/Service/Facet/BuildWebFacetService.php:137-139 | the loop never removes a custom field, and leaves the bag unchanged without failure when every item is skipped |
| Facets.PopulateStep | Model/Service/Facet/BuildWebFacetService.php:137-139 | one turn of the loop: a raising item ends it with the bag so far, any other continues from the updated bag |
| Facets.BuildWebFacetService.MapValueToFilter | Model/Service/Facet/BuildWebFacetService.php:229-253 | the brand code is looked up at most once while it stays configured (a ghost counter); the bag is updated by the switch on the lower-cased name |
| Facets.BuildWebFacetService.MapIncludeFilter | Model/Service/Facet/BuildWebFacetService.php:150-206 | a skipped item leaves the bag, the brand cache and the lookup count untouched; a mapped item looks the brand up only while it is unset; otherwise the result is the mapped value applied with the refreshed brand code |
| Facets.BuildWebFacetService.PopulateFilters | Model/Service/Facet/BuildWebFacetService.php:132-140 | the loop gives the bag and first exception defined by Populate, items taken in order, stopping at the first exception |
| Facets.BuildWebFacetService.GetFacets | Model/Service/Facet/BuildWebFacetService.php:112-124 | an exception is swallowed and the filters mapped before it are kept, with empty exclude filters; a PHP Error from the price case escapes |
| FacetLaws.ToLowerKeepsLowerCase | Model/Service/Facet/BuildWebFacetService.php:235 | a code with no capital letters is its own lower case, so the literal cases match their spellings |
| FacetLaws.ScalarBecomesSingleton | Model/Service/Facet/BuildWebFacetService.php:264-272 | every scalar yields a one-element list, a boolean as its "Yes"/"No" text |
| FacetLaws.BooleanFilterYieldsYesNo | Model/Service/Facet/BuildWebFacetService.php:192-194 | a boolean attribute filter stores ["Yes"] or ["No"] from the truthiness of its raw value, under its own code |
| FacetLaws.NewFlagIsLowerCaseText | Model/Service/Facet/BuildWebFacetService.php:239-242 | the code `new` stores lower-case ["yes"]/["no"], which differs from the boolean coercion's "Yes"/"No" |
| FacetLaws.ReservedCodesIgnoreBrand | Model/Service/Facet/BuildWebFacetService.php:235-245 | price, new and category are decided before the brand case: the brand code cannot change their outcome and they never touch the brands |
| FacetLaws.BrandCodeSetsBrands | Model/Service/Facet/BuildWebFacetService.php:246-248 | a code equal to the brand code replaces the brands list and nothing else, or raises FacetValueException for null and objects |
| FacetLaws.CategoryCodeSetsCategories | Model/Service/Facet/BuildWebFacetService.php:243-244 | the code `category` sets the categories to the one-element list of its value and changes nothing else |
| FacetLaws.CategoryItemResolves | Model/Service/Facet/BuildWebFacetService.php:152-161 | a category filter for a missing category raises NoSuchCategory; one with a non-empty path sets the categories to that path |
| FacetLaws.OtherCodesBecomeCustomFields | Model/Service/Facet/BuildWebFacetService.php:249-251 | any other code becomes a custom field under its original spelling, or raises FacetValueException for null and objects |
| FacetLaws.PriceSetsOrderedRange | Model/Service/Facet/BuildWebFacetService.php:236-238 | for numbers, a price filter sets only the price, to elements of the array that are the least and the greatest, whatever their order |
| FacetLaws.PriceScenario | Model/Service/Facet/BuildWebFacetService.php:236-238 | the values [100, 50] give the range (50, 100) |
| FacetLaws.OpenEndedPriceRange | Model/Service/Facet/BuildWebFacetService.php:236-238 | the open-ended values ['200', ''] give the range ('', '200') |
| FacetLaws.PriceOfNonArrayEscapes | Model/Service/Facet/BuildWebFacetService.php:237 | a price value that is not an array, or is empty, raises an Error that the facet service does not catch |
| FacetLaws.ValueByFrontendInput | Model/Service/Facet/BuildWebFacetService.php:181-198 | select/multiselect take the label, boolean the cast value, price the raw value, date the empty string; every other input kind is skipped |
| FacetLaws.DateFilterPassesEmptyString | Model/Service/Facet/BuildWebFacetService.php:190-191 | a date filter is still passed on, as the custom field `['']` |
| FacetLaws.UnusableItemsAreSkipped | Model/Service/Facet/BuildWebFacetService.php:155-204 | a missing or empty category path, a missing filter, attribute model or input kind, an unknown kind or a non-string code leaves the bag unchanged |
| FacetLaws.PopulateStopsAtFirstFailure | Model/Service/Facet/BuildWebFacetService.php:137-139 | once an item has raised, later items have no effect |
| FacetLaws.PopulateConcat | Model/Service/Facet/BuildWebFacetService.php:137-139 | the loop over two runs of items continues from the bag the first run left |
| FacetLaws.PartialFacetsOnFailure | Model/Service/Facet/BuildWebFacetService.php:117-123 | an exception in one item keeps every filter mapped before it and drops all after it |
| FacetLaws.CategoryAndColourScenario | Model/Service/Facet/BuildWebFacetService.php:150-206 | a category filter and a multiselect colour filter give the category path and the custom field color = ["Red"] |
| FacetLaws.CategoryStep | Model/Service/Facet/BuildWebFacetService.php:152-161 | a category filter with a path sets the categories to that one path |
| FacetLaws.ColourStep | Model/Service/Facet/BuildWebFacetService.php:186-189 | a multiselect filter stores its label under its code |
| RequestParams.SanitizeLimit | Model/Service/Recommendation/StateAwareCategoryService.php:353-364 | the limit sent is the caller's or the maximum, and always a number no greater than the maximum; it is the caller's exactly when that is a number within the maximum other than the integer 0, or already the maximum |
| RequestParams.SanitizeLimitCases | Model/Service/Merchandise/RequestParamsService.php:201-212 | 0, too-large and non-numeric limits give the maximum; for every integer string, one above the maximum gives the maximum and any other (the string "0" included) passes through; positive and negative integers within it pass through |
| RequestParams.SanitizeLimitIdempotent | Model/Service/Merchandise/RequestParamsService.php:201-212 | sanitising a sanitised limit changes nothing |
| RequestParams.BatchToken | Model/Service/Merchandise/RequestParamsService.php:163-170 | the token is '' or the stored one; for a numeric limit and an integer page it is the stored one iff the stored limit and page are numerically equal to them |
| RequestParams.TokenReusedOnlyForSamePageAndLimit | Model/Service/Recommendation/StateAwareCategoryService.php:245-252 | for an integer page, the token is reused iff the stored limit equals the sanitised limit's number and the stored page equals the page |
| RequestParams.PreviewMode | Model/Service/Merchandise/RequestParamsService.php:161 | preview is on exactly when the cookie is present and is neither '' nor '0' |
| RequestParams.CreateRequestParams | Model/Service/Merchandise/RequestParamsService.php:135-182 | a missing account, then a missing GraphQL capability, then a failed session, then a failed category lookup are reported in that order; otherwise every field of the request is the account, facets, customer id (cookie or new session), category, page, sanitised limit, preview flag and batch token |
| RequestParams.SessionOnlyWithoutCookie | Model/Service/Recommendation/StateAwareCategoryService.php:234-238 | with a customer cookie present, the session service's outcome makes no difference |
| RequestParams.AccountCheckedFirst | Model/Service/Merchandise/RequestParamsService.php:138-144 | with no account, nothing else in the store context affects the outcome |
| RequestParams.ContinuationScenario | Model/Service/Merchandise/RequestParamsService.php:163-170 | a batch stored for page 2 and limit 24 is continued by page 2 with limit 24, and not by page 3 |
| Recommendation.StateAwareCategoryService.GetMerchandiseResults | Model/Service/Recommendation/StateAwareCategoryService.php:274-318 | the result is the remote call's; on success exactly one post-results event with the request's limit and page is appended |
| Recommendation.StateAwareCategoryService.GetPersonalisationResult | Model/Service/Recommendation/StateAwareCategoryService.php:188-206 | request errors and remote errors propagate; on success the last result and the caller's raw limit are stored, the event carries the sanitised limit, and getLastUsedLimit then answers the raw limit coerced to int; on failure nothing changes |
| Recommendation.StateAwareCategoryService.GetLastResult | Model/Service/Recommendation/StateAwareCategoryService.php:323-326 | the last result exists exactly when an event was dispatched, and is the last event's result |
| Recommendation.StateAwareCategoryService.GetLastUsedLimit | Model/Service/Recommendation/StateAwareCategoryService.php:343-346 | before any successful call it raises TypeError (None); afterwards it is the last caller's raw limit coerced to int |
| Toolbar.Reverse | Plugin/Catalog/Block/Toolbar.php:159 | array_reverse keeps the length and puts element k at position n-1-k |
| Toolbar.Field | Plugin/Catalog/Block/Toolbar.php:211 | FIELD is 0 exactly for an absent id, otherwise the 1-based position of its first occurrence |
| Toolbar.FieldOfDistinct | Plugin/Catalog/Block/Toolbar.php:211 | in a list without duplicates, FIELD of the i-th element is i+1 |
| Toolbar.FieldOfReversed | Plugin/Catalog/Block/Toolbar.php:159-160 | over the reversed ranking, FIELD of the i-th ranked id is n-i |
| Toolbar.RankingIsFieldDescending | Plugin/Catalog/Block/Toolbar.php:159-160 | for a ranking without duplicate ids, the ranked ids are strictly descending in FIELD over the reversed list, so best-ranked sorts first |
| Toolbar.FieldDescendingIsRankingOrder | Plugin/Catalog/Block/Toolbar.php:206-214 | for a ranking and rows without duplicates, rows sorted by FIELD(id, reversed ids) DESC appear in increasing ranking position |
| Toolbar.RepeatedIdSortsAtLastPosition | Plugin/Catalog/Block/Toolbar.php:159-160 | in a ranking `[a, b, a]`, FIELD over the reversed list gives a the lower key, so a sorts after b at its last ranked position |
| Toolbar.FullPageInRankingOrder | Plugin/Catalog/Block/Toolbar.php:156-161 | for a ranking without duplicate ids, when every ranked id has exactly one row, the sorted rows are the ranking itself |
| Toolbar.RankedSelect | Plugin/Catalog/Block/Toolbar.php:156-161 | the select changes only for a non-empty all-scalar id list; then the order is the single FIELD term over the reversed ids; the earlier where terms are always kept, with at most one added |
| Toolbar.UnusableIdsLeaveSelect | Plugin/Catalog/Block/Toolbar.php:156-165 | an empty id list or one with a non-scalar id leaves the select as it was |
| Toolbar.RankedSelectRestrictsToIds | Plugin/Catalog/Block/Toolbar.php:156-161 | a usable id list replaces the whole order, keeps the earlier where terms, and admits a row iff it passed them and is a ranked id |
| Toolbar.ThreeIdScenario | Plugin/Catalog/Block/Toolbar.php:156-161 | ranking 10, 20, 30 gives FIELD keys 3, 2, 1, admits only those three rows and orders by FIELD(e.entity_id, 30, 20, 10) DESC |
| Toolbar.ToolbarPlugin.SortByProductIds | Plugin/Catalog/Block/Toolbar.php:206-214 | the order part is reset to the single FIELD term; the where part is kept |
| Toolbar.ToolbarPlugin.WhereInProductIds | Plugin/Catalog/Block/Toolbar.php:220-227 | an IN term is appended to the where part; the order part is kept |
| Toolbar.ToolbarPlugin.AfterSetCollection | Plugin/Catalog/Block/Toolbar.php:125-172 | returns the subject; skips when already processed or not MySQL; sets the flag unless an Error escapes from facet building; off a CMP-sorted category page or without a product collection neither service nor the collection changes; otherwise the post-results event carries the sanitised page size and page-1, and the select becomes the ranked select exactly when the request and the remote call succeed |

## Left out

- Logging, debug tracing, ServerTiming instrumentation and the text of the generated SQL are not modelled. The order and where terms are kept as structured terms.
- Thread-safety and request lifetimes are not modelled. The static `$isProcessed` is a field of one plugin object.
- PHP 8 semantics are modelled; PHP 7's warnings-and-null behaviour of `min`/`max` is not.
- Floats are not modelled. `is_numeric` recognises decimal integer strings with an optional sign. Strings with fractions, exponents or surrounding whitespace count as non-numeric, in `sanitizeLimit`, in `<=>` and in the `int` coercion.
- Facets.PriceOf: an array holding a boolean, null, an array or an object is not ordered by PHP's rules for those types. The model ends the filter loop with `PriceNotComparable` there, where PHP would compute some range and go on.
- Facets.ApplyValue: the switch compares strings loosely. Two numeric strings (for example "1e1" and "10") are not compared numerically; the model compares exactly.
- Facets.BuildWebFacetService.MapValueToFilter: the store's brand code is a constant of the service, so the helper is assumed to answer the same code on every call.
- The `IncludeFilters` library class is modelled as a record whose setters replace the field they set. For custom fields, the setter replaces the entry for that name. What `setPrice` does with a string bound such as `''` is not part of this model.
- `getCategoryName` and `getCurrentCategoryString` are inputs: a function of the category id, and a field of the store context. The category repository and builder are not part of this model.
- `CategoryMerchandisingUtil::parseProductIds` is not part of this model. The ids are taken to be the result's id list.
- `NostoHelperArray::onlyScalarValues` is not part of this model. It is taken to be `is_scalar` on every element.
- Recommendation.StateAwareCategoryService.GetLastUsedLimit: leading-numeric strings such as "24abc", which PHP 8 coerces to `int` with a warning, are treated as raising TypeError.
- Recommendation.StateAwareCategoryService: the contract does not link each raw limit to its event's sanitised limit, because the maximum limit of each call is not recorded.
- Toolbar: MySQL's comparison of ids of mixed types (a string id against an integer column) is not modelled. Ids are compared as values.
- `Plugin/Catalog/Model/Sortby.php` is not part of this model.

=== FILE: facet_laws.dfy ===
/**
 * Properties of facet building: the list coercion, the dispatch on the
 * lower-cased attribute code, the guards that skip an item, and the loop
 * that stops at the first exception but keeps what it already mapped.
 */
module FacetLaws {
  import opened PhpValue
  import opened Facets

  /** An attribute filter item whose filter, attribute model, input kind and code are all present. */
  function AttributeFilterItem(kind: string, code: string, rawValue: Value, itemLabel: Value): FilterItem
  {
    AttributeItem(Some(LayerFilter(Some(AttributeModel(Some(kind), Str(code))))), rawValue, itemLabel)
  }

  /** The codes the switch of mapValueToFilter tests before the brand code. */
  predicate Reserved(key: string)
  {
    key == "price" || key == "new" || key == "category"
  }

  predicate HasNoUpperCase(s: string)
  {
    forall i :: 0 <= i < |s| ==> !('A' <= s[i] <= 'Z')
  }

  /** strtolower leaves a code without capitals as it is. */
  lemma {:induction false} ToLowerKeepsLowerCase(s: string)
    requires HasNoUpperCase(s)
    ensures ToLower(s) == s
  {
    if s != [] {
      assert HasNoUpperCase(s[1..]) by {
        forall i | 0 <= i < |s[1..]| ensures !('A' <= s[1..][i] <= 'Z') {
          assert s[1..][i] == s[i + 1];
        }
      }
      ToLowerKeepsLowerCase(s[1..]);
      assert s == [s[0]] + s[1..];
    }
  }

  /** A scalar is wrapped into a one-element list; a boolean becomes the text "Yes" or "No". */
  lemma ScalarBecomesSingleton(name: string, v: Value)
    requires IsScalar(v)
    ensures MakeArrayFromValue(name, v).Ok?
    ensures MakeArrayFromValue(name, v).value == [if v.Bool? then Str(YesNo(v.b)) else v]
  {
  }

  /** Boolean attribute filters reach the service as "Yes"/"No" text under their own code. */
  lemma BooleanFilterYieldsYesNo(
    brand: Option<string>, inc: Filters, code: string, rawValue: Value, itemLabel: Value,
    categoryName: Value -> CategoryName)
    requires !Reserved(ToLower(code)) && !BrandMatches(brand, ToLower(code))
    ensures ApplyItem(brand, inc, AttributeFilterItem("boolean", code, rawValue, itemLabel), categoryName)
         == Ok(inc.(customFields := inc.customFields[code := [Str(YesNo(Truthy(rawValue)))]]))
  {
  }

  /** The code `new` stores lower-case 'yes'/'no', not the "Yes"/"No" of boolean coercion. */
  lemma NewFlagIsLowerCaseText(brand: Option<string>, inc: Filters, name: string, value: Value)
    requires ToLower(name) == "new"
    ensures ApplyValue(brand, inc, name, value)
         == Ok(inc.(customFields := inc.customFields[name := [Str(if Truthy(value) then "yes" else "no")]]))
    ensures ApplyValue(brand, inc, name, value).value.customFields[name] != [Str(YesNo(Truthy(value)))]
  {
  }

  /** `price`, `new` and `category` are decided before the brand case: the brand code cannot change them. */
  lemma ReservedCodesIgnoreBrand(brand: Option<string>, other: Option<string>, inc: Filters, name: string, value: Value)
    requires Reserved(ToLower(name))
    ensures ApplyValue(brand, inc, name, value) == ApplyValue(other, inc, name, value)
    ensures ApplyValue(brand, inc, name, value).Ok? ==> ApplyValue(brand, inc, name, value).value.brands == inc.brands
  {
  }

  /** The configured brand code fills the brand list and nothing else, or raises FacetValueException for null and objects. */
  lemma BrandCodeSetsBrands(brand: Option<string>, inc: Filters, name: string, value: Value)
    requires !Reserved(ToLower(name)) && BrandMatches(brand, ToLower(name))
    ensures value.Null? || value.Obj? ==> ApplyValue(brand, inc, name, value) == Err(FacetValueException(name, value))
    ensures !value.Null? && !value.Obj? ==>
      ApplyValue(brand, inc, name, value) == Ok(inc.(brands := Some(MakeArrayFromValue(name, value).value)))
  {
  }

  /** The code `category` sets the categories to the one value, whatever it is, and nothing else. */
  lemma CategoryCodeSetsCategories(brand: Option<string>, inc: Filters, name: string, value: Value)
    requires ToLower(name) == "category"
    ensures ApplyValue(brand, inc, name, value) == Ok(inc.(categories := Some([value])))
  {
  }

  /** A category filter raises NoSuchCategory when the category does not exist, and sets the categories to a non-empty path. */
  lemma CategoryItemResolves(brand: Option<string>, inc: Filters, id: Value, categoryName: Value -> CategoryName)
    ensures categoryName(id) == NoSuchEntity ==> ApplyItem(brand, inc, CategoryItem(id), categoryName) == Err(NoSuchCategory(id))
    ensures categoryName(id).Path? && categoryName(id).path != "" ==>
      ApplyItem(brand, inc, CategoryItem(id), categoryName) == Ok(inc.(categories := Some([Str(categoryName(id).path)])))
  {
    if categoryName(id).Path? && categoryName(id).path != "" {
      ToLowerKeepsLowerCase("category");
      CategoryCodeSetsCategories(brand, inc, "category", Str(categoryName(id).path));
    }
  }

  /** Every other code becomes a custom field under its original spelling, or raises FacetValueException. */
  lemma OtherCodesBecomeCustomFields(brand: Option<string>, inc: Filters, name: string, value: Value)
    requires !Reserved(ToLower(name)) && !BrandMatches(brand, ToLower(name))
    ensures value.Null? || value.Obj? ==> ApplyValue(brand, inc, name, value) == Err(FacetValueException(name, value))
    ensures !value.Null? && !value.Obj? ==>
      ApplyValue(brand, inc, name, value) == Ok(inc.(customFields := inc.customFields[name := MakeArrayFromValue(name, value).value]))
  {
  }

  /** For numbers, the price code sets the range to the least and greatest of the values, whatever their order. */
  lemma PriceSetsOrderedRange(brand: Option<string>, inc: Filters, name: string, xs: seq<Value>)
    requires ToLower(name) == "price"
    requires |xs| > 0 && AllNumeric(xs)
    ensures ApplyValue(brand, inc, name, Arr(xs)).Ok?
    ensures var p := ApplyValue(brand, inc, name, Arr(xs)).value.price;
      && p.Some? && p.value.min in xs && p.value.max in xs
      && IsNumeric(p.value.min) && IsNumeric(p.value.max)
      && (forall i :: 0 <= i < |xs| ==> NumericValue(p.value.min) <= NumericValue(xs[i]) <= NumericValue(p.value.max))
    ensures ApplyValue(brand, inc, name, Arr(xs)).value == inc.(price := ApplyValue(brand, inc, name, Arr(xs)).value.price)
  {
    assert AllComparable(xs);
    var p := PriceOf(Arr(xs)).value;
    var k :| 0 <= k < |xs| && xs[k] == p.min;
    var l :| 0 <= l < |xs| && xs[l] == p.max;
  }

  /** A price filter `[100, 50]` yields the range (50, 100). */
  lemma PriceScenario(brand: Option<string>)
    ensures ApplyValue(brand, NoFilters, "price", Arr([Int(100), Int(50)]))
         == Ok(NoFilters.(price := Some(PriceRange(Int(50), Int(100)))))
  {
    ToLowerKeepsLowerCase("price");
  }

  /**
   * An open-ended range `['200', '']`: the empty string is not numeric, so
   * both comparisons are string comparisons and '' sorts first; the range
   * handed on is ('', '200').
   */
  lemma OpenEndedPriceRange(brand: Option<string>)
    ensures ApplyValue(brand, NoFilters, "price", Arr([Str("200"), Str("")]))
         == Ok(NoFilters.(price := Some(PriceRange(Str(""), Str("200")))))
  {
    ToLowerKeepsLowerCase("price");
    assert !IsNumeric(Str(""));
    assert StrCompare("200", "") == 1;
  }

  /** `min`/`max` of a non-array or an empty array raise a PHP Error, which the facet service does not catch. */
  lemma PriceOfNonArrayEscapes(brand: Option<string>, inc: Filters, name: string, value: Value)
    requires ToLower(name) == "price"
    requires !value.Arr? || value.items == []
    ensures ApplyValue(brand, inc, name, value) == Err(PriceArgumentError(value))
    ensures Escapes(ApplyValue(brand, inc, name, value).error)
  {
  }

  /** The value chosen for each frontend input kind, and the kinds that are skipped. */
  lemma ValueByFrontendInput(kind: string, code: string, rawValue: Value, itemLabel: Value, categoryName: Value -> CategoryName)
    ensures var r := Resolve(AttributeFilterItem(kind, code, rawValue, itemLabel), categoryName);
      && (kind == "select" || kind == "multiselect" ==> r == MapTo(code, itemLabel))
      && (kind == "boolean" ==> r == MapTo(code, Bool(Truthy(rawValue))))
      && (kind == "price" ==> r == MapTo(code, rawValue))
      && (kind == "date" ==> r == MapTo(code, Str("")))
      && (kind !in {"select", "multiselect", "boolean", "price", "date"} ==> r == Skip)
  {
  }

  /** A date filter is still passed on, as the one-element list `['']`. */
  lemma DateFilterPassesEmptyString(
    brand: Option<string>, inc: Filters, code: string, rawValue: Value, itemLabel: Value,
    categoryName: Value -> CategoryName)
    requires !Reserved(ToLower(code)) && !BrandMatches(brand, ToLower(code))
    ensures ApplyItem(brand, inc, AttributeFilterItem("date", code, rawValue, itemLabel), categoryName)
         == Ok(inc.(customFields := inc.customFields[code := [Str("")]]))
  {
  }

  /** The items mapIncludeFilter returns on without touching the bag. */
  lemma UnusableItemsAreSkipped(
    brand: Option<string>, inc: Filters, categoryName: Value -> CategoryName,
    id: Value, rawValue: Value, itemLabel: Value, kind: string, code: Value)
    ensures categoryName(id) == NoPath || categoryName(id) == Path("") ==>
      ApplyItem(brand, inc, CategoryItem(id), categoryName) == Ok(inc)
    ensures ApplyItem(brand, inc, AttributeItem(None, rawValue, itemLabel), categoryName) == Ok(inc)
    ensures ApplyItem(brand, inc, AttributeItem(Some(LayerFilter(None)), rawValue, itemLabel), categoryName) == Ok(inc)
    ensures ApplyItem(brand, inc, AttributeItem(Some(LayerFilter(Some(AttributeModel(None, code)))), rawValue, itemLabel), categoryName) == Ok(inc)
    ensures ValueForInput(kind, rawValue, itemLabel).None? ==>
      ApplyItem(brand, inc, AttributeItem(Some(LayerFilter(Some(AttributeModel(Some(kind), code)))), rawValue, itemLabel), categoryName) == Ok(inc)
    ensures !code.Str? ==>
      ApplyItem(brand, inc, AttributeItem(Some(LayerFilter(Some(AttributeModel(Some(kind), code)))), rawValue, itemLabel), categoryName) == Ok(inc)
  {
  }

  /** Once an item has raised, the items after it have no effect. */
  lemma {:induction false} PopulateStopsAtFirstFailure(
    brand: Option<string>, inc: Filters, done: seq<FilterItem>, rest: seq<FilterItem>,
    categoryName: Value -> CategoryName)
    requires Populate(brand, inc, done, categoryName).failure.Some?
    ensures Populate(brand, inc, done + rest, categoryName) == Populate(brand, inc, done, categoryName)
    decreases |done|
  {
    assert done != [];
    assert (done + rest)[0] == done[0];
    assert (done + rest)[1..] == done[1..] + rest;
    match ApplyItem(brand, inc, done[0], categoryName)
    case Err(e) =>
    case Ok(next) =>
      PopulateStopsAtFirstFailure(brand, next, done[1..], rest, categoryName);
  }

  /** The loop over `done + rest` continues from the bag the loop over `done` left. */
  lemma {:induction false} PopulateConcat(
    brand: Option<string>, inc: Filters, done: seq<FilterItem>, rest: seq<FilterItem>,
    categoryName: Value -> CategoryName)
    requires Populate(brand, inc, done, categoryName).failure.None?
    ensures Populate(brand, inc, done + rest, categoryName)
         == Populate(brand, Populate(brand, inc, done, categoryName).filters, rest, categoryName)
    decreases |done|
  {
    if done == [] {
      assert done + rest == rest;
    } else {
      assert (done + rest)[0] == done[0];
      assert (done + rest)[1..] == done[1..] + rest;
      match ApplyItem(brand, inc, done[0], categoryName)
      case Err(e) =>
      case Ok(next) =>
        PopulateConcat(brand, next, done[1..], rest, categoryName);
    }
  }

  /** An exception in one item keeps every filter mapped before it and drops all after it. */
  lemma PartialFacetsOnFailure(
    brand: Option<string>, inc: Filters, done: seq<FilterItem>, bad: FilterItem, rest: seq<FilterItem>,
    categoryName: Value -> CategoryName)
    requires Populate(brand, inc, done, categoryName).failure.None?
    requires ApplyItem(brand, Populate(brand, inc, done, categoryName).filters, bad, categoryName).Err?
    ensures Populate(brand, inc, done + [bad] + rest, categoryName)
         == Populated(Populate(brand, inc, done, categoryName).filters,
                      Some(ApplyItem(brand, Populate(brand, inc, done, categoryName).filters, bad, categoryName).error))
  {
    var mid := Populate(brand, inc, done, categoryName).filters;
    assert done + [bad] + rest == done + ([bad] + rest);
    PopulateConcat(brand, inc, done, [bad] + rest, categoryName);
    assert ([bad] + rest)[0] == bad;
  }

  /** A category filter and a multiselect colour filter, with brand code "manufacturer". */
  lemma CategoryAndColourScenario(categoryName: Value -> CategoryName, red: Value)
    requires categoryName(Int(42)) == Path("Electronics/Phones")
    ensures Populate(Some("manufacturer"), NoFilters,
                     [CategoryItem(Int(42)), AttributeFilterItem("multiselect", "color", red, Str("Red"))],
                     categoryName)
         == Populated(NoFilters.(categories := Some([Str("Electronics/Phones")]), customFields := map["color" := [Str("Red")]]), None)
  {
    var b := Some("manufacturer");
    var colour := AttributeFilterItem("multiselect", "color", red, Str("Red"));
    var first := NoFilters.(categories := Some([Str("Electronics/Phones")]));
    var last := first.(customFields := map["color" := [Str("Red")]]);
    CategoryStep(b, categoryName);
    ColourStep(b, first, red, categoryName);
    var items := [CategoryItem(Int(42)), colour];
    assert items[0] == CategoryItem(Int(42)) && items[1..] == [colour];
    assert Populate(b, NoFilters, items, categoryName) == Populate(b, first, [colour], categoryName);
    assert [colour][0] == colour && [colour][1..] == [];
    assert Populate(b, first, [colour], categoryName) == Populate(b, last, [], categoryName);
  }

  lemma CategoryStep(b: Option<string>, categoryName: Value -> CategoryName)
    requires categoryName(Int(42)) == Path("Electronics/Phones")
    ensures ApplyItem(b, NoFilters, CategoryItem(Int(42)), categoryName)
         == Ok(NoFilters.(categories := Some([Str("Electronics/Phones")])))
  {
    ToLowerKeepsLowerCase("category");
  }

  lemma ColourStep(b: Option<string>, inc: Filters, red: Value, categoryName: Value -> CategoryName)
    requires b == Some("manufacturer") && inc.customFields == map[]
    ensures ApplyItem(b, inc, AttributeFilterItem("multiselect", "color", red, Str("Red")), categoryName)
         == Ok(inc.(customFields := map["color" := [Str("Red")]]))
  {
    ToLowerKeepsLowerCase("color");
    assert map[]["color" := [Str("Red")]] == map["color" := [Str("Red")]];
  }
}

=== FILE: facets.dfy ===
/**
 * Facet building: the shopper's active layered-navigation filters become the
 * include-filter bag sent with a category-merchandising request.
 */
module Facets {
  import opened PhpValue

  /** The pair handed to `setPrice`: whatever `min` and `max` returned. */
  datatype PriceRange = PriceRange(min: Value, max: Value)

  /**
   * The include (or exclude) filter bag of the ranking client library. The
   * library is not part of this model; its setters are taken to replace the
   * field they set, and setting a custom field replaces that key only.
   */
  datatype Filters = Filters(
    price: Option<PriceRange>,
    categories: Option<seq<Value>>,
    brands: Option<seq<Value>>,
    customFields: map<string, seq<Value>>)

  const NoFilters := Filters(None, None, None, map[])

  /** The pair handed to the request assembler. */
  datatype Facet = Facet(includeFilters: Filters, excludeFilters: Filters)

  /**
   * What can abort the filter loop. `PriceArgumentError` is the TypeError or
   * ValueError PHP 8's `min`/`max` raise for a non-array or an empty array;
   * `PriceNotComparable` stands for an array holding a value other than an
   * integer or a string, whose ordering this model does not define.
   */
  datatype FacetError =
    | FacetValueException(field: string, value: Value)
    | PriceArgumentError(value: Value)
    | PriceNotComparable(value: Value)
    | NoSuchCategory(categoryId: Value)

  /** A PHP `Error` rather than an `Exception`: `catch (Exception $e)` lets it through. */
  predicate Escapes(e: FacetError)
  {
    e.PriceArgumentError?
  }

  /** What the category repository and the category-path builder give for a category id. */
  datatype CategoryName = Path(path: string) | NoPath | NoSuchEntity

  datatype AttributeModel = AttributeModel(frontendInput: Option<string>, attributeCode: Value)

  /** A layered-navigation filter that is not the category filter. */
  datatype LayerFilter = LayerFilter(attributeModel: Option<AttributeModel>)

  /** One active filter item of the layered-navigation state. */
  datatype FilterItem =
    | CategoryItem(categoryId: Value)
    | AttributeItem(filter: Option<LayerFilter>, rawValue: Value, itemLabel: Value)

  /** What a filter item turns into before it reaches the filter bag. */
  datatype Mapping = Skip | MapTo(name: string, value: Value) | Fail(error: FacetError)

  function YesNo(b: bool): string
  {
    if b then "Yes" else "No"
  }

  /** Coerces a filter value into a list, or raises FacetValueException. */
  function MakeArrayFromValue(name: string, v: Value): (r: Result<seq<Value>, FacetError>)
    ensures r.Err? <==> v.Null? || v.Obj?
    ensures r.Err? ==> r.error == FacetValueException(name, v)
    ensures v.Str? || v.Int? ==> r == Ok([v])
    ensures v.Bool? ==> r == Ok([Str(YesNo(v.b))])
    ensures v.Arr? ==> r == Ok(v.items)
    ensures r.Ok? && !v.Arr? ==> |r.value| == 1 && !r.value[0].Bool?
  {
    match v
    case Str(_) => Ok([v])
    case Int(_) => Ok([v])
    case Bool(b) => Ok([Str(YesNo(b))])
    case Arr(xs) => Ok(xs)
    case Null => Err(FacetValueException(name, v))
    case Obj => Err(FacetValueException(name, v))
  }

  predicate AllNumeric(xs: seq<Value>)
  {
    forall i :: 0 <= i < |xs| ==> IsNumeric(xs[i])
  }

  predicate AllComparable(xs: seq<Value>)
  {
    forall i :: 0 <= i < |xs| ==> Comparable(xs[i])
  }

  /**
   * `min` of a non-empty array: the first element, replaced by each later
   * element that the running minimum compares above.
   */
  function MinOf(xs: seq<Value>): (m: Value)
    requires |xs| > 0 && AllComparable(xs)
    ensures m in xs
    ensures AllNumeric(xs) ==> forall i :: 0 <= i < |xs| ==> NumericValue(m) <= NumericValue(xs[i])
  {
    if |xs| == 1 then xs[0]
    else
      var init := xs[..|xs| - 1];
      assert forall i :: 0 <= i < |init| ==> init[i] == xs[i];
      var m := MinOf(init);
      if Compare(m, xs[|xs| - 1]) > 0 then xs[|xs| - 1] else m
  }

  /**
   * `max` of a non-empty array: the first element, replaced by each later
   * element that the running maximum compares below.
   */
  function MaxOf(xs: seq<Value>): (m: Value)
    requires |xs| > 0 && AllComparable(xs)
    ensures m in xs
    ensures AllNumeric(xs) ==> forall i :: 0 <= i < |xs| ==> NumericValue(xs[i]) <= NumericValue(m)
  {
    if |xs| == 1 then xs[0]
    else
      var init := xs[..|xs| - 1];
      assert forall i :: 0 <= i < |init| ==> init[i] == xs[i];
      var m := MaxOf(init);
      if Compare(m, xs[|xs| - 1]) < 0 then xs[|xs| - 1] else m
  }

  /**
   * `(min(value), max(value))`. None for an array holding something other
   * than integers and strings; the caller raises for non-arrays and empty arrays.
   */
  function PriceOf(value: Value): (r: Option<PriceRange>)
    requires value.Arr? && |value.items| > 0
    ensures r.Some? <==> AllComparable(value.items)
    ensures r.Some? ==> r.value.min in value.items && r.value.max in value.items
    ensures r.Some? && AllNumeric(value.items) ==> NumericValue(r.value.min) <= NumericValue(r.value.max)
  {
    if AllComparable(value.items) then Some(PriceRange(MinOf(value.items), MaxOf(value.items)))
    else None
  }

  /** A brand code that is not configured (null or empty) is fetched again. */
  predicate Unset(brand: Option<string>)
  {
    brand == None || brand == Some("")
  }

  /** The cached brand code after the lazy lookup at the head of mapValueToFilter. */
  function RefreshBrand(cached: Option<string>, fetched: Option<string>): (b: Option<string>)
    ensures !Unset(cached) ==> b == cached
    ensures b == cached || b == fetched
    ensures Unset(b) <==> Unset(cached) && Unset(fetched)
  {
    if Unset(cached) then fetched else cached
  }

  /** Once refreshed, the cached code stays what it is: the helper answers the same code again. */
  lemma RefreshBrandIdempotent(cached: Option<string>, fetched: Option<string>)
    ensures RefreshBrand(RefreshBrand(cached, fetched), fetched) == RefreshBrand(cached, fetched)
  {
  }

  /** `case $this->brand` compares loosely, so a null brand matches the empty name. */
  predicate BrandMatches(brand: Option<string>, key: string)
  {
    match brand
    case None => key == ""
    case Some(b) => key == b
  }

  /** The switch of mapValueToFilter, for the brand code already resolved. */
  function ApplyValue(brand: Option<string>, inc: Filters, name: string, value: Value): (r: Result<Filters, FacetError>)
    ensures r.Err? && ToLower(name) == "price" ==> r.error in {PriceArgumentError(value), PriceNotComparable(value)}
    ensures r.Err? && ToLower(name) != "price" ==> r.error == FacetValueException(name, value) && (value.Null? || value.Obj?)
    ensures ToLower(name) !in {"price", "new", "category"} && (value.Null? || value.Obj?) ==> r == Err(FacetValueException(name, value))
    ensures r.Ok? && ToLower(name) != "price" ==> r.value.price == inc.price
    ensures r.Ok? && ToLower(name) != "category" ==> r.value.categories == inc.categories
    ensures r.Ok? && !BrandMatches(brand, ToLower(name)) ==> r.value.brands == inc.brands
    ensures r.Ok? ==> inc.customFields.Keys <= r.value.customFields.Keys <= inc.customFields.Keys + {name}
    ensures r.Ok? ==> forall k :: k in inc.customFields && k != name ==> r.value.customFields[k] == inc.customFields[k]
    ensures r.Ok? && ToLower(name) in {"price", "category"} ==> r.value.customFields == inc.customFields
    ensures r.Ok? && ToLower(name) in {"price", "new", "category"} ==> r.value.brands == inc.brands
    ensures r.Ok? && ToLower(name) !in {"price", "new", "category"} && BrandMatches(brand, ToLower(name)) ==> r.value.customFields == inc.customFields
  {
    var key := ToLower(name);
    if key == "price" then
      if !value.Arr? || value.items == [] then Err(PriceArgumentError(value))
      else
        match PriceOf(value)
        case Some(p) => Ok(inc.(price := Some(p)))
        case None => Err(PriceNotComparable(value))
    else if key == "new" then
      match MakeArrayFromValue(name, Str(if Truthy(value) then "yes" else "no"))
      case Ok(xs) => Ok(inc.(customFields := inc.customFields[name := xs]))
      case Err(e) => Err(e)
    else if key == "category" then
      Ok(inc.(categories := Some([value])))
    else if BrandMatches(brand, key) then
      match MakeArrayFromValue(name, value)
      case Ok(xs) => Ok(inc.(brands := Some(xs)))
      case Err(e) => Err(e)
    else
      match MakeArrayFromValue(name, value)
      case Ok(xs) => Ok(inc.(customFields := inc.customFields[name := xs]))
      case Err(e) => Err(e)
  }

  /** The value mapIncludeFilter picks for a frontend input kind, or None to skip the item. */
  function ValueForInput(kind: string, rawValue: Value, itemLabel: Value): (r: Option<Value>)
    ensures r.Some? <==> kind in {"price", "select", "multiselect", "date", "boolean"}
    ensures kind == "date" || kind == "boolean" ==> r.Some? && IsScalar(r.value)
  {
    if kind == "price" then Some(rawValue)
    else if kind == "select" || kind == "multiselect" then Some(itemLabel)
    else if kind == "date" then Some(Str(""))
    else if kind == "boolean" then Some(Bool(Truthy(rawValue)))
    else None
  }

  /** The guards of mapIncludeFilter: which name and value reach mapValueToFilter. */
  function Resolve(item: FilterItem, categoryName: Value -> CategoryName): (r: Mapping)
    ensures r.Fail? <==> item.CategoryItem? && categoryName(item.categoryId) == NoSuchEntity
    ensures r.Fail? ==> r.error == NoSuchCategory(item.categoryId)
    ensures item.CategoryItem? ==>
      (r.MapTo? <==> categoryName(item.categoryId).Path? && categoryName(item.categoryId).path != "")
    ensures r.MapTo? && item.CategoryItem? ==> r == MapTo("category", Str(categoryName(item.categoryId).path))
  {
    match item
    case CategoryItem(id) =>
      (match categoryName(id)
       case NoSuchEntity => Fail(NoSuchCategory(id))
       case NoPath => Skip
       case Path(p) => if p == "" then Skip else MapTo("category", Str(p)))
    case AttributeItem(filter, rawValue, itemLabel) =>
      if filter.None? || filter.value.attributeModel.None? then Skip
      else
        var model := filter.value.attributeModel.value;
        if model.frontendInput.None? then Skip
        else
          match ValueForInput(model.frontendInput.value, rawValue, itemLabel)
          case None => Skip
          case Some(v) => if model.attributeCode.Str? then MapTo(model.attributeCode.s, v) else Skip
  }

  /** mapIncludeFilter followed by mapValueToFilter, for the brand code already resolved. */
  function ApplyItem(brand: Option<string>, inc: Filters, item: FilterItem, categoryName: Value -> CategoryName)
    : (r: Result<Filters, FacetError>)
    ensures Resolve(item, categoryName).Skip? ==> r == Ok(inc)
    ensures r.Err? && r.error.NoSuchCategory? <==> item.CategoryItem? && categoryName(item.categoryId) == NoSuchEntity
    ensures r.Ok? ==> inc.customFields.Keys <= r.value.customFields.Keys
  {
    match Resolve(item, categoryName)
    case Skip => Ok(inc)
    case Fail(e) => Err(e)
    case MapTo(name, value) => ApplyValue(brand, inc, name, value)
  }

  /** The filter bag after the loop, and the exception that ended it early, if any. */
  datatype Populated = Populated(filters: Filters, failure: Option<FacetError>)

  /** The loop of populateFilters: items in order, stopping at the first exception. */
  function Populate(brand: Option<string>, inc: Filters, items: seq<FilterItem>, categoryName: Value -> CategoryName)
    : (r: Populated)
    ensures inc.customFields.Keys <= r.filters.customFields.Keys
    ensures (forall i :: 0 <= i < |items| ==> Resolve(items[i], categoryName).Skip?) ==> r == Populated(inc, None)
    decreases |items|
  {
    if items == [] then Populated(inc, None)
    else
      assert forall i :: 0 <= i < |items| - 1 ==> items[1..][i] == items[i + 1];
      match ApplyItem(brand, inc, items[0], categoryName)
      case Err(e) => Populated(inc, Some(e))
      case Ok(next) => Populate(brand, next, items[1..], categoryName)
  }

  /** One turn of the filter loop. */
  lemma PopulateStep(brand: Option<string>, inc: Filters, items: seq<FilterItem>, categoryName: Value -> CategoryName)
    requires items != []
    ensures ApplyItem(brand, inc, items[0], categoryName).Err? ==>
      Populate(brand, inc, items, categoryName) == Populated(inc, Some(ApplyItem(brand, inc, items[0], categoryName).error))
    ensures ApplyItem(brand, inc, items[0], categoryName).Ok? ==>
      Populate(brand, inc, items, categoryName)
        == Populate(brand, ApplyItem(brand, inc, items[0], categoryName).value, items[1..], categoryName)
  {
  }

  class BuildWebFacetService {
    /** What the data helper answers for the store's brand attribute code. */
    const brandAttribute: Option<string>
    /** The lazily cached brand attribute code. */
    var brand: Option<string>
    /** How many times the data helper was asked for the brand code. */
    ghost var brandLookups: nat

    ghost predicate Valid()
      reads this
    {
      && (brandLookups == 0 ==> brand == None)
      && (brandLookups > 0 ==> brand == brandAttribute)
      && (!Unset(brandAttribute) ==> brandLookups <= 1)
    }

    constructor (brandAttribute: Option<string>)
      ensures Valid()
      ensures this.brandAttribute == brandAttribute && brand == None && brandLookups == 0
    {
      this.brandAttribute := brandAttribute;
      brand := None;
      brandLookups := 0;
    }

    /** Resolves the brand code once, then dispatches on the lower-cased name. */
    method MapValueToFilter(inc: Filters, name: string, value: Value) returns (r: Result<Filters, FacetError>)
      requires Valid()
      modifies this
      ensures Valid()
      ensures brand == RefreshBrand(old(brand), brandAttribute)
      ensures brandLookups == old(brandLookups) + (if Unset(old(brand)) then 1 else 0)
      ensures r == ApplyValue(brand, inc, name, value)
    {
      if Unset(brand) {
        brand := brandAttribute;
        brandLookups := brandLookups + 1;
      }
      r := ApplyValue(brand, inc, name, value);
    }

    /** Maps one active filter item; a skipped item leaves the bag and the brand cache alone. */
    method MapIncludeFilter(inc: Filters, item: FilterItem, categoryName: Value -> CategoryName)
      returns (r: Result<Filters, FacetError>)
      requires Valid()
      modifies this
      ensures Valid()
      ensures brand == if Resolve(item, categoryName).MapTo? then RefreshBrand(old(brand), brandAttribute) else old(brand)
      ensures brandLookups == old(brandLookups) + (if Resolve(item, categoryName).MapTo? && Unset(old(brand)) then 1 else 0)
      ensures r == ApplyItem(RefreshBrand(old(brand), brandAttribute), inc, item, categoryName)
    {
      var m := Resolve(item, categoryName);
      match m
      case Skip =>
        r := Ok(inc);
      case Fail(e) =>
        r := Err(e);
      case MapTo(name, value) =>
        r := MapValueToFilter(inc, name, value);
    }

    /** The loop over the active filters; the bag is passed by reference, so partial work survives a failure. */
    method PopulateFilters(inc: Filters, items: seq<FilterItem>, categoryName: Value -> CategoryName)
      returns (out: Populated)
      requires Valid()
      modifies this
      ensures Valid()
      ensures brand == old(brand) || brand == RefreshBrand(old(brand), brandAttribute)
      ensures out == Populate(RefreshBrand(old(brand), brandAttribute), inc, items, categoryName)
    {
      ghost var b := RefreshBrand(brand, brandAttribute);
      var cur := inc;
      var i := 0;
      while i < |items|
        invariant 0 <= i <= |items|
        invariant Valid()
        invariant brand == old(brand) || brand == b
        invariant Populate(b, inc, items, categoryName) == Populate(b, cur, items[i..], categoryName)
      {
        ghost var before := brand;
        var step := MapIncludeFilter(cur, items[i], categoryName);
        assert step == ApplyItem(b, cur, items[i], categoryName) by {
          RefreshBrandIdempotent(old(brand), brandAttribute);
          assert RefreshBrand(before, brandAttribute) == b;
        }
        PopulateStep(b, cur, items[i..], categoryName);
        match step {
          case Err(e) =>
            return Populated(cur, Some(e));
          case Ok(next) =>
            cur := next;
        }
        assert items[i..][1..] == items[i + 1..];
        i := i + 1;
      }
      out := Populated(cur, None);
    }

    /**
     * An exception ends the loop and the filters mapped so far are kept; a
     * PHP `Error` from the price case is not caught and escapes.
     */
    method GetFacets(items: seq<FilterItem>, categoryName: Value -> CategoryName) returns (r: Result<Facet, FacetError>)
      requires Valid()
      modifies this
      ensures Valid()
      ensures brand == old(brand) || brand == RefreshBrand(old(brand), brandAttribute)
      ensures var p := Populate(RefreshBrand(old(brand), brandAttribute), NoFilters, items, categoryName);
        if p.failure.Some? && Escapes(p.failure.value) then r == Err(p.failure.value)
        else r == Ok(Facet(p.filters, NoFilters))
    {
      var populated := PopulateFilters(NoFilters, items, categoryName);
      if populated.failure.Some? && Escapes(populated.failure.value) {
        return Err(populated.failure.value);
      }
      r := Ok(Facet(populated.filters, NoFilters));
    }
  }
}

=== FILE: php_value.dfy ===
/**
 * The slice of PHP's dynamic value semantics that the plugin relies on:
 * a small value universe, truthiness of `(bool)` casts, `is_numeric`,
 * `is_scalar`, loose `==` against an integer, the `<=>` ordering of
 * integers and strings, the coercion to an `int` return type and
 * `strtolower`.
 */
module PhpValue {

  datatype Option<+T> = None | Some(value: T)

  datatype Result<+T, +E> = Ok(value: T) | Err(error: E)

  /** A PHP value as far as the plugin inspects it. `Obj` is any object instance. */
  datatype Value =
    | Str(s: string)
    | Int(i: int)
    | Bool(b: bool)
    | Arr(items: seq<Value>)
    | Null
    | Obj

  /** The result of a `(bool)` cast. */
  predicate Truthy(v: Value)
  {
    match v
    case Str(s) => s != "" && s != "0"
    case Int(i) => i != 0
    case Bool(b) => b
    case Arr(xs) => xs != []
    case Null => false
    case Obj => true
  }

  /** `is_scalar`: strings, numbers and booleans; null, arrays and objects are not. */
  predicate IsScalar(v: Value)
  {
    v.Str? || v.Int? || v.Bool?
  }

  predicate IsDigit(c: char)
  {
    '0' <= c <= '9'
  }

  predicate AllDigits(s: string)
  {
    forall i :: 0 <= i < |s| ==> IsDigit(s[i])
  }

  /** A decimal integer literal with an optional sign: the numeric strings this model recognises. */
  predicate IsIntegerString(s: string)
  {
    if |s| > 0 && (s[0] == '-' || s[0] == '+') then |s| > 1 && AllDigits(s[1..])
    else |s| > 0 && AllDigits(s)
  }

  function DigitsValue(s: string): nat
    requires AllDigits(s)
  {
    if s == [] then 0
    else DigitsValue(s[..|s| - 1]) * 10 + (s[|s| - 1] as int - '0' as int)
  }

  function StringToInt(s: string): int
    requires IsIntegerString(s)
  {
    if s[0] == '-' then -(DigitsValue(s[1..]) as int)
    else if s[0] == '+' then DigitsValue(s[1..])
    else DigitsValue(s)
  }

  /** `is_numeric`: integers and integer strings. */
  predicate IsNumeric(v: Value)
  {
    v.Int? || (v.Str? && IsIntegerString(v.s))
  }

  /** The number a numeric value stands for when PHP compares it with a number. */
  function NumericValue(v: Value): int
    requires IsNumeric(v)
  {
    if v.Int? then v.i else StringToInt(v.s)
  }

  /** PHP 8 loose equality `n == v` between an integer and any value. */
  predicate LooseEqualsInt(n: int, v: Value)
  {
    match v
    case Int(m) => n == m
    case Str(s) => IsIntegerString(s) && StringToInt(s) == n
    case Bool(b) => (n != 0) == b
    case Null => n == 0
    case Arr(_) => false
    case Obj => n == 1
  }

  function LowerChar(c: char): char
  {
    if 'A' <= c <= 'Z' then (c as int + 32) as char else c
  }

  /** `strtolower` on ASCII letters; every other character is kept. */
  function ToLower(s: string): (r: string)
    ensures |r| == |s|
    ensures forall i :: 0 <= i < |s| ==> r[i] == LowerChar(s[i])
  {
    if s == [] then [] else [LowerChar(s[0])] + ToLower(s[1..])
  }

  /** An integer agrees loosely only with values that denote that integer. */
  lemma LooseEqualsIntOnNumbers(n: int, v: Value)
    requires IsNumeric(v)
    ensures LooseEqualsInt(n, v) <==> NumericValue(v) == n
  {
  }

  /** Against values that are not numbers, loose `==` follows null as 0, booleans as truth, and never holds for text or arrays. */
  lemma LooseEqualsIntOnOthers(n: int, s: string, xs: seq<Value>)
    ensures LooseEqualsInt(n, Null) <==> n == 0
    ensures LooseEqualsInt(n, Bool(true)) <==> n != 0
    ensures LooseEqualsInt(n, Bool(false)) <==> n == 0
    ensures !IsIntegerString(s) ==> !LooseEqualsInt(n, Str(s))
    ensures !LooseEqualsInt(n, Arr(xs))
  {
  }

  /** The `(bool)` cast of text: a non-zero integer string is true, but so is "00", while "" and "0" are false. */
  lemma CastToBool(i: int, s: string)
    ensures Truthy(Int(i)) <==> !LooseEqualsInt(0, Int(i))
    ensures IsNumeric(Str(s)) && NumericValue(Str(s)) != 0 ==> Truthy(Str(s))
    ensures !Truthy(Str("")) && !Truthy(Str("0")) && Truthy(Str("00"))
    ensures IsNumeric(Str("00")) && NumericValue(Str("00")) == 0
  {
    assert IsIntegerString("00") && StringToInt("00") == DigitsValue("00");
    assert "00"[..1] == "0" && "0"[..0] == "";
  }

  function DigitChar(d: nat): char
    requires d < 10
  {
    ('0' as int + d) as char
  }

  /** The decimal text of a natural number. */
  function NatToString(n: nat): (s: string)
    ensures |s| > 0 && AllDigits(s)
  {
    if n < 10 then [DigitChar(n)] else NatToString(n / 10) + [DigitChar(n % 10)]
  }

  /** `(string)` of an integer. */
  function IntToString(i: int): string
  {
    if i < 0 then "-" + NatToString(-i) else NatToString(i)
  }

  lemma {:induction false} NatToStringDigits(n: nat)
    ensures DigitsValue(NatToString(n)) == n
  {
    var s := NatToString(n);
    if n >= 10 {
      assert s[..|s| - 1] == NatToString(n / 10);
      NatToStringDigits(n / 10);
    } else {
      assert s[..|s| - 1] == [];
    }
  }

  /** The text PHP prints for an integer is a numeric string that denotes that integer again. */
  lemma IntegerStringRoundTrip(i: int)
    ensures IsNumeric(Str(IntToString(i)))
    ensures NumericValue(Str(IntToString(i))) == i
  {
    if i < 0 {
      var s := IntToString(i);
      assert s[1..] == NatToString(-i);
      NatToStringDigits(-i);
    } else {
      NatToStringDigits(i);
    }
  }

  function Sign(x: int): int
  {
    if x < 0 then -1 else if x > 0 then 1 else 0
  }

  /** The sign of PHP's binary string comparison: byte by byte, a proper prefix first. */
  function StrCompare(s: string, t: string): (c: int)
    ensures -1 <= c <= 1
    ensures c == 0 <==> s == t
  {
    if s == [] && t == [] then 0
    else if s == [] then -1
    else if t == [] then 1
    else if s[0] < t[0] then -1
    else if s[0] > t[0] then 1
    else
      var c := StrCompare(s[1..], t[1..]);
      assert s == [s[0]] + s[1..] && t == [t[0]] + t[1..];
      c
  }

  lemma {:induction false} StrCompareAntisymmetric(s: string, t: string)
    ensures StrCompare(s, t) == -StrCompare(t, s)
  {
    if s != [] && t != [] && s[0] == t[0] {
      StrCompareAntisymmetric(s[1..], t[1..]);
    }
  }

  /** Integers and strings, the values `<=>` is modelled on. */
  predicate Comparable(v: Value)
  {
    v.Int? || v.Str?
  }

  function AsText(v: Value): string
    requires Comparable(v)
  {
    if v.Int? then IntToString(v.i) else v.s
  }

  /**
   * PHP 8 `<=>` between integers and strings: two numbers (an integer or a
   * numeric string) compare as numbers; otherwise the integer is printed and
   * the two are compared as strings.
   */
  function Compare(a: Value, b: Value): (c: int)
    requires Comparable(a) && Comparable(b)
    ensures -1 <= c <= 1
    ensures IsNumeric(a) && IsNumeric(b) ==> (c < 0 <==> NumericValue(a) < NumericValue(b))
    ensures IsNumeric(a) && IsNumeric(b) ==> (c > 0 <==> NumericValue(a) > NumericValue(b))
  {
    if IsNumeric(a) && IsNumeric(b) then Sign(NumericValue(a) - NumericValue(b))
    else StrCompare(AsText(a), AsText(b))
  }

  /** Swapping the operands of `<=>` flips the sign. */
  lemma CompareAntisymmetric(a: Value, b: Value)
    requires Comparable(a) && Comparable(b)
    ensures Compare(a, b) == -Compare(b, a)
  {
    if !(IsNumeric(a) && IsNumeric(b)) {
      StrCompareAntisymmetric(AsText(a), AsText(b));
    }
  }

  /**
   * The coercion of a value returned from a function declared `: int`, with
   * no strict types: integers pass, booleans become 0 or 1, integer strings
   * their number; null, arrays, objects and other strings raise TypeError (None).
   */
  function CoerceToInt(v: Value): (r: Option<int>)
    ensures IsNumeric(v) ==> r == Some(NumericValue(v))
    ensures v.Bool? ==> r == Some(if v.b then 1 else 0)
    ensures r.Some? <==> IsScalar(v) && (v.Str? ==> IsIntegerString(v.s))
  {
    match v
    case Int(i) => Some(i)
    case Bool(b) => Some(if b then 1 else 0)
    case Str(s) => if IsIntegerString(s) then Some(StringToInt(s)) else None
    case _ => None
  }

  /** A returned integer, or its printed text, comes back as itself. */
  lemma CoerceToIntRoundTrip(i: int)
    ensures CoerceToInt(Int(i)) == Some(i)
    ensures CoerceToInt(Str(IntToString(i))) == Some(i)
  {
    IntegerStringRoundTrip(i);
  }
}

=== FILE: recommendation.dfy ===
/**
 * The state-aware category service: assembles the request, runs the remote
 * category-merchandising call, announces the result and remembers it with the
 * limit the caller asked for.
 */
module Recommendation {
  import opened PhpValue
  import opened Facets
  import opened RequestParams

  /** What the remote call answers: ranked product ids, the total count and the next batch token. */
  datatype MerchandiseResult = MerchandiseResult(productIds: seq<Value>, totalPrimaryCount: int, batchToken: Option<string>)

  /** A transport or protocol failure of the remote call. */
  datatype RemoteError = HttpFailure(status: int) | ResponseFailure(message: string)

  datatype ServiceError = RequestFailed(requestError: RequestError) | RemoteFailed(remoteError: RemoteError)

  /** The post-results event: the result, the limit sent and the page number sent. */
  datatype PostResultsEvent = PostResults(result: MerchandiseResult, limit: Value, page: Value)

  /** The remote call, as a function of the request it is given. */
  type RemoteCall = MerchandiseRequestParams -> Result<MerchandiseResult, RemoteError>

  class StateAwareCategoryService {
    var lastResult: Option<MerchandiseResult>
    /** Null until the first successful call. */
    var lastUsedLimit: Option<Value>
    /** Every post-results event dispatched by this instance, oldest first. */
    ghost var events: seq<PostResultsEvent>
    /** The caller's raw limit of each successful call, oldest first. */
    ghost var limits: seq<Value>

    /**
     * Both fields are written exactly when a post-results event goes out: the
     * result is the last event's and the limit the last caller's.
     */
    ghost predicate Valid()
      reads this
    {
      && |limits| == |events|
      && (lastResult.Some? <==> events != [])
      && (events != [] ==> lastResult.value == events[|events| - 1].result)
      && lastUsedLimit == if limits == [] then None else Some(limits[|limits| - 1])
    }

    constructor ()
      ensures Valid()
      ensures lastResult == None && lastUsedLimit == None && events == [] && limits == []
    {
      lastResult := None;
      lastUsedLimit := None;
      events := [];
      limits := [];
    }

    /** getMerchandiseResults: run the remote call and, on success, dispatch the post-results event. */
    method GetMerchandiseResults(params: MerchandiseRequestParams, execute: RemoteCall)
      returns (r: Result<MerchandiseResult, RemoteError>)
      modifies this`events
      ensures r == execute(params)
      ensures events == if r.Ok? then old(events) + [PostResults(r.value, params.limit, params.pageNumber)] else old(events)
    {
      r := execute(params);
      if r.Ok? {
        events := events + [PostResults(r.value, params.limit, params.pageNumber)];
      }
    }

    /** getPersonalisationResult: on success both fields are updated; on any exception neither is. */
    method GetPersonalisationResult(facets: Facet, pageNumber: Value, limit: Value, env: StoreContext, execute: RemoteCall)
      returns (r: Result<MerchandiseResult, ServiceError>)
      requires Valid()
      modifies this
      ensures Valid()
      ensures var req := CreateRequestParams(env, facets, pageNumber, limit);
        && (req.Err? ==> r == Err(RequestFailed(req.error)))
        && (req.Ok? && execute(req.value).Err? ==> r == Err(RemoteFailed(execute(req.value).error)))
        && (req.Ok? && execute(req.value).Ok? ==> r == Ok(execute(req.value).value))
      ensures r.Ok? ==>
        && lastResult == Some(r.value)
        && lastUsedLimit == Some(limit)
        && events == old(events) + [PostResults(r.value, SanitizeLimit(limit, env.maxLimit), pageNumber)]
        && limits == old(limits) + [limit]
        && GetLastUsedLimit() == CoerceToInt(limit)
      ensures r.Err? ==>
        && lastResult == old(lastResult) && lastUsedLimit == old(lastUsedLimit)
        && events == old(events) && limits == old(limits)
    {
      var req := CreateRequestParams(env, facets, pageNumber, limit);
      if req.Err? {
        return Err(RequestFailed(req.error));
      }
      var outcome := GetMerchandiseResults(req.value, execute);
      if outcome.Err? {
        return Err(RemoteFailed(outcome.error));
      }
      lastResult := Some(outcome.value);
      lastUsedLimit := Some(limit);
      limits := limits + [limit];
      r := Ok(outcome.value);
    }

    /** The most recent successful result: the one announced by the last post-results event. */
    function GetLastResult(): (r: Option<MerchandiseResult>)
      reads this
      requires Valid()
      ensures r.Some? <==> events != []
      ensures r.Some? ==> r.value == events[|events| - 1].result
    {
      lastResult
    }

    /**
     * The caller's limit of the last successful call, coerced to the declared
     * `int` return type; None where that raises TypeError (before any
     * successful call, and for a limit that is not an integer, a boolean or
     * an integer string).
     */
    function GetLastUsedLimit(): (r: Option<int>)
      reads this
      requires Valid()
      ensures events == [] ==> r == None
      ensures events != [] ==> r == CoerceToInt(limits[|limits| - 1])
    {
      match lastUsedLimit
      case None => None
      case Some(limit) => CoerceToInt(limit)
    }
  }
}

=== FILE: request_params.dfy ===
/**
 * Request assembly for batched category merchandising. RequestParamsService
 * and StateAwareCategoryService carry the same createRequestParams and
 * sanitizeLimit, line for line; both are modelled by the one definition here.
 * The two read the batch model and the new session through different
 * collaborator classes; the StoreContext stands for what those answer, so
 * the two give the same request only where their collaborators answer alike.
 */
module RequestParams {
  import opened PhpValue
  import opened Facets

  datatype Account = Account(name: string, canUseGraphql: bool)

  /** The pagination state the result session stored for the previous batch. */
  datatype BatchModel = BatchModel(lastUsedLimit: int, lastFetchedPage: int, batchToken: string)

  /** The visit-session service either mints a customer id or raises SessionCreationException. */
  datatype SessionOutcome = NewSession(id: string) | SessionCreationFailed

  /** The category-path builder either answers (possibly null) or fails. */
  datatype CategoryOutcome = CategoryPath(path: Option<string>) | CategoryLookupFailed

  /** What the store-scoped collaborators answer while one request is assembled. */
  datatype StoreContext = StoreContext(
    account: Option<Account>,
    customerCookie: Option<string>,
    newSession: SessionOutcome,
    maxLimit: int,
    currentCategory: CategoryOutcome,
    previewCookie: Option<string>,
    batchModel: Option<BatchModel>)

  datatype MerchandiseRequestParams = MerchandiseRequestParams(
    account: Account,
    facets: Facet,
    customerId: string,
    category: Option<string>,
    pageNumber: Value,
    limit: Value,
    previewMode: bool,
    batchToken: string)

  datatype RequestError = MissingAccount | MissingToken | SessionCreation | CategoryNotFound

  /** When sanitizeLimit replaces the limit by the configured maximum. */
  predicate ClampsLimit(limit: Value, maxLimit: int)
  {
    !IsNumeric(limit) || NumericValue(limit) > maxLimit || limit == Int(0)
  }

  /** The limit actually sent: the caller's limit unless it is non-numeric, too large or the integer 0. */
  function SanitizeLimit(limit: Value, maxLimit: int): (r: Value)
    ensures r == limit || r == Int(maxLimit)
    ensures IsNumeric(r) && NumericValue(r) <= maxLimit
    ensures r == limit <==> (IsNumeric(limit) && NumericValue(limit) <= maxLimit && limit != Int(0)) || limit == Int(maxLimit)
  {
    if ClampsLimit(limit, maxLimit) then Int(maxLimit) else limit
  }

  /** When the stored continuation token may be reused: PHP's loose `==` on both coordinates. */
  predicate ReusesBatch(batch: Option<BatchModel>, limit: Value, pageNumber: Value)
  {
    && batch.Some?
    && LooseEqualsInt(batch.value.lastUsedLimit, limit)
    && LooseEqualsInt(batch.value.lastFetchedPage, pageNumber)
  }

  /** The continuation token: the stored one exactly when both pagination coordinates match, else ''. */
  function BatchToken(batch: Option<BatchModel>, limit: Value, pageNumber: Value): (token: string)
    ensures token == "" || (batch.Some? && token == batch.value.batchToken)
    ensures IsNumeric(limit) && pageNumber.Int? ==>
      token == if batch.Some? && batch.value.lastUsedLimit == NumericValue(limit) && batch.value.lastFetchedPage == pageNumber.i
               then batch.value.batchToken else ""
  {
    if ReusesBatch(batch, limit, pageNumber) then batch.value.batchToken else ""
  }

  /** `(bool)` of the preview cookie: a missing cookie, '' and '0' are off, any other text is on. */
  predicate PreviewMode(cookie: Option<string>)
    ensures PreviewMode(cookie) <==> cookie.Some? && cookie.value !in {"", "0"}
  {
    cookie.Some? && Truthy(Str(cookie.value))
  }

  /** createRequestParams: account, capability, customer id, limit, category, preview flag, token. */
  function CreateRequestParams(env: StoreContext, facets: Facet, pageNumber: Value, limit: Value)
    : (r: Result<MerchandiseRequestParams, RequestError>)
    ensures env.account.None? ==> r == Err(MissingAccount)
    ensures env.account.Some? && !env.account.value.canUseGraphql ==> r == Err(MissingToken)
    ensures r == Err(SessionCreation) <==>
      && env.account.Some? && env.account.value.canUseGraphql
      && env.customerCookie.None? && env.newSession.SessionCreationFailed?
    ensures r == Err(CategoryNotFound) <==>
      && env.account.Some? && env.account.value.canUseGraphql
      && (env.customerCookie.Some? || env.newSession.NewSession?)
      && env.currentCategory.CategoryLookupFailed?
    ensures r.Ok? <==>
      && env.account.Some? && env.account.value.canUseGraphql
      && (env.customerCookie.Some? || env.newSession.NewSession?)
      && env.currentCategory.CategoryPath?
    ensures r.Ok? ==>
      && r.value.account == env.account.value
      && r.value.facets == facets
      && r.value.pageNumber == pageNumber
      && r.value.limit == SanitizeLimit(limit, env.maxLimit)
      && r.value.customerId == (if env.customerCookie.Some? then env.customerCookie.value else env.newSession.id)
      && r.value.category == env.currentCategory.path
      && r.value.previewMode == PreviewMode(env.previewCookie)
      && r.value.batchToken == BatchToken(env.batchModel, r.value.limit, pageNumber)
  {
    match env.account
    case None => Err(MissingAccount)
    case Some(account) =>
      if !account.canUseGraphql then Err(MissingToken)
      else
        var customer :=
          match env.customerCookie
          case Some(id) => NewSession(id)
          case None => env.newSession;
        match customer
        case SessionCreationFailed => Err(SessionCreation)
        case NewSession(customerId) =>
          var sanitized := SanitizeLimit(limit, env.maxLimit);
          match env.currentCategory
          case CategoryLookupFailed => Err(CategoryNotFound)
          case CategoryPath(category) =>
            Ok(MerchandiseRequestParams(
              account, facets, customerId, category, pageNumber, sanitized,
              PreviewMode(env.previewCookie), BatchToken(env.batchModel, sanitized, pageNumber)))
  }

  /** The clamping table: 0, too large or non-numeric give the maximum; everything else passes, negatives and numeric strings included. */
  lemma SanitizeLimitCases(n: int, maxLimit: int, other: Value, s: string)
    ensures 0 < n <= maxLimit ==> SanitizeLimit(Int(n), maxLimit) == Int(n)
    ensures n < 0 && n <= maxLimit ==> SanitizeLimit(Int(n), maxLimit) == Int(n)
    ensures n > maxLimit ==> SanitizeLimit(Int(n), maxLimit) == Int(maxLimit)
    ensures SanitizeLimit(Int(0), maxLimit) == Int(maxLimit)
    ensures !IsNumeric(other) ==> SanitizeLimit(other, maxLimit) == Int(maxLimit)
    ensures 0 <= maxLimit ==> SanitizeLimit(Str("0"), maxLimit) == Str("0")
    ensures IsIntegerString(s) ==>
      SanitizeLimit(Str(s), maxLimit) == if StringToInt(s) > maxLimit then Int(maxLimit) else Str(s)
    ensures SanitizeLimit(Str("30"), 24) == Int(24)
    ensures SanitizeLimit(Str("12"), 24) == Str("12")
  {
    assert IsIntegerString("0") && StringToInt("0") == 0;
    assert "30"[..1] == "3" && "3"[..0] == "" && "12"[..1] == "1" && "1"[..0] == "";
    assert IsIntegerString("30") && StringToInt("30") == 30;
    assert IsIntegerString("12") && StringToInt("12") == 12;
  }

  /** Sanitising an already sanitised limit changes nothing. */
  lemma SanitizeLimitIdempotent(limit: Value, maxLimit: int)
    ensures SanitizeLimit(SanitizeLimit(limit, maxLimit), maxLimit) == SanitizeLimit(limit, maxLimit)
  {
  }

  /** For an integer page, the token is reused iff the stored limit and page equal the sanitised limit and the page. */
  lemma TokenReusedOnlyForSamePageAndLimit(batch: Option<BatchModel>, limit: Value, maxLimit: int, page: int)
    ensures var sanitized := SanitizeLimit(limit, maxLimit);
      BatchToken(batch, sanitized, Int(page))
        == if batch.Some? && batch.value.lastUsedLimit == NumericValue(sanitized) && batch.value.lastFetchedPage == page
           then batch.value.batchToken else ""
  {
    var sanitized := SanitizeLimit(limit, maxLimit);
    if batch.Some? {
      LooseEqualsIntOnNumbers(batch.value.lastUsedLimit, sanitized);
    }
  }

  /** The customer cookie, when present, makes the session service irrelevant: no session is created. */
  lemma SessionOnlyWithoutCookie(env: StoreContext, other: SessionOutcome, facets: Facet, pageNumber: Value, limit: Value)
    requires env.customerCookie.Some?
    ensures CreateRequestParams(env.(newSession := other), facets, pageNumber, limit)
         == CreateRequestParams(env, facets, pageNumber, limit)
  {
  }

  /** A missing account is reported before the capability, the session or anything else is looked at. */
  lemma AccountCheckedFirst(env: StoreContext, other: StoreContext, facets: Facet, pageNumber: Value, limit: Value)
    requires env.account.None?
    requires other.account.None?
    ensures CreateRequestParams(env, facets, pageNumber, limit) == CreateRequestParams(other, facets, pageNumber, limit)
  {
  }

  /** Page 2 with limit 24 after a batch stored for page 2 and limit 24 continues it; page 3 starts afresh. */
  lemma ContinuationScenario(env: StoreContext, facets: Facet, token: string)
    requires env.account.Some? && env.account.value.canUseGraphql
    requires env.customerCookie.Some? && env.currentCategory.CategoryPath?
    requires env.maxLimit >= 24
    requires env.batchModel == Some(BatchModel(24, 2, token))
    ensures CreateRequestParams(env, facets, Int(2), Int(24)).value.batchToken == token
    ensures CreateRequestParams(env, facets, Int(3), Int(24)).value.batchToken == ""
  {
  }
}

=== FILE: toolbar.dfy ===
/**
 * The toolbar plugin: once per pass, on a category page sorted by the CMP
 * order, it fetches the ranking and rewrites the product collection's select
 * to keep only the ranked products, best first.
 */
module Toolbar {
  import opened PhpValue
  import opened Facets
  import opened RequestParams
  import opened Recommendation

  const EntityId := "e.entity_id"

  /** An ORDER BY term: `FIELD(column, ids) DESC`, or one the platform added. */
  datatype OrderTerm = FieldDesc(column: string, ids: seq<Value>) | NativeOrder(expr: string)

  /** A WHERE term: `column IN (ids)`, or one the platform added. */
  datatype WhereTerm = IdIn(column: string, ids: seq<Value>) | NativeWhere(expr: string)

  /** The collection's select, reduced to its order and where parts. */
  datatype Select = Select(order: seq<OrderTerm>, where: seq<WhereTerm>)

  predicate AllScalar(ids: seq<Value>)
  {
    forall i :: 0 <= i < |ids| ==> IsScalar(ids[i])
  }

  predicate Distinct(xs: seq<Value>)
  {
    forall i, j :: 0 <= i < j < |xs| ==> xs[i] != xs[j]
  }

  /** array_reverse. */
  function Reverse(xs: seq<Value>): (r: seq<Value>)
    ensures |r| == |xs|
    ensures forall k :: 0 <= k < |xs| ==> r[k] == xs[|xs| - 1 - k]
  {
    if xs == [] then [] else Reverse(xs[1..]) + [xs[0]]
  }

  /** MySQL FIELD(x, xs...): the 1-based position of the first element equal to x, 0 when none is. */
  function Field(x: Value, xs: seq<Value>): (p: nat)
    ensures p <= |xs|
    ensures p == 0 <==> x !in xs
    ensures p > 0 ==> xs[p - 1] == x && x !in xs[..p - 1]
  {
    if xs == [] then 0
    else if xs[0] == x then 1
    else
      var q := Field(x, xs[1..]);
      if q == 0 then 0
      else
        assert xs[..q] == [xs[0]] + xs[1..][..q - 1];
        q + 1
  }

  /** In a list without duplicates FIELD gives the 1-based index of each element. */
  lemma FieldOfDistinct(xs: seq<Value>, i: nat)
    requires Distinct(xs) && i < |xs|
    ensures Field(xs[i], xs) == i + 1
  {
    assert xs[i] in xs;
  }

  /** Over the reversed ranking, FIELD gives the best product the highest key. */
  lemma FieldOfReversed(ids: seq<Value>, i: nat)
    requires Distinct(ids) && i < |ids|
    ensures Field(ids[i], Reverse(ids)) == |ids| - i
  {
    var rev := Reverse(ids);
    assert rev[|ids| - 1 - i] == ids[i];
    var p := Field(ids[i], rev);
    assert rev[p - 1] == ids[|ids| - p];
  }

  /** The ranking itself is strictly descending in FIELD over the reversed ranking. */
  lemma RankingIsFieldDescending(ids: seq<Value>)
    requires Distinct(ids)
    ensures forall i, j :: 0 <= i < j < |ids| ==> Field(ids[i], Reverse(ids)) > Field(ids[j], Reverse(ids))
  {
    forall i, j | 0 <= i < j < |ids|
      ensures Field(ids[i], Reverse(ids)) > Field(ids[j], Reverse(ids))
    {
      FieldOfReversed(ids, i);
      FieldOfReversed(ids, j);
    }
  }

  /** Rows in the order the database returns for `ORDER BY FIELD(e.entity_id, key...) DESC`. */
  predicate SortedByFieldDesc(rows: seq<Value>, key: seq<Value>)
  {
    forall p, q :: 0 <= p < q < |rows| ==> Field(rows[p], key) >= Field(rows[q], key)
  }

  /** Ordering by FIELD over the reversed ranking, descending, keeps every two ranked rows in ranking order. */
  lemma FieldDescendingIsRankingOrder(ids: seq<Value>, rows: seq<Value>)
    requires Distinct(ids) && Distinct(rows)
    requires forall p :: 0 <= p < |rows| ==> rows[p] in ids
    requires SortedByFieldDesc(rows, Reverse(ids))
    ensures forall p, q :: 0 <= p < q < |rows| ==> Field(rows[p], ids) < Field(rows[q], ids)
  {
    forall p, q | 0 <= p < q < |rows|
      ensures Field(rows[p], ids) < Field(rows[q], ids)
    {
      var a := Field(rows[p], ids) - 1;
      var b := Field(rows[q], ids) - 1;
      FieldOfReversed(ids, a);
      FieldOfReversed(ids, b);
      assert a != b;
    }
  }

  /** With a repeated id, FIELD over the reversed list ranks it by its last occurrence. */
  lemma RepeatedIdSortsAtLastPosition(a: Value, b: Value)
    requires a != b
    ensures Field(a, Reverse([a, b, a])) == 1 && Field(b, Reverse([a, b, a])) == 2
  {
    assert Reverse([a, b, a]) == [a, b, a];
  }

  lemma {:induction false} IncreasingAtLeastIndex(ranks: seq<int>, p: nat)
    requires forall i :: 0 <= i < |ranks| ==> ranks[i] >= 0
    requires forall i, j :: 0 <= i < j < |ranks| ==> ranks[i] < ranks[j]
    requires p < |ranks|
    ensures ranks[p] >= p
  {
    if p > 0 {
      IncreasingAtLeastIndex(ranks, p - 1);
    }
  }

  lemma {:induction false} IncreasingAtMostIndex(ranks: seq<int>, p: nat)
    requires forall i :: 0 <= i < |ranks| ==> ranks[i] < |ranks|
    requires forall i, j :: 0 <= i < j < |ranks| ==> ranks[i] < ranks[j]
    requires p < |ranks|
    ensures ranks[p] <= p
    decreases |ranks| - p
  {
    if p < |ranks| - 1 {
      IncreasingAtMostIndex(ranks, p + 1);
    }
  }

  /** The 0-based ranking position of each row, strictly increasing down the page. */
  lemma RanksOf(ids: seq<Value>, rows: seq<Value>) returns (ranks: seq<int>)
    requires Distinct(ids) && Distinct(rows) && |rows| == |ids|
    requires forall p :: 0 <= p < |rows| ==> rows[p] in ids
    requires SortedByFieldDesc(rows, Reverse(ids))
    ensures |ranks| == |rows|
    ensures forall p :: 0 <= p < |rows| ==> 0 <= ranks[p] < |ranks| && ids[ranks[p]] == rows[p]
    ensures forall i, j :: 0 <= i < j < |ranks| ==> ranks[i] < ranks[j]
  {
    FieldDescendingIsRankingOrder(ids, rows);
    ranks := seq(|rows|, p requires 0 <= p < |rows| => Field(rows[p], ids) - 1);
    assert forall p :: 0 <= p < |rows| ==> ranks[p] == Field(rows[p], ids) - 1;
  }

  /** A full page: when every ranked product has a row, the rows come back exactly in ranking order. */
  lemma FullPageInRankingOrder(ids: seq<Value>, rows: seq<Value>)
    requires Distinct(ids) && Distinct(rows) && |rows| == |ids|
    requires forall p :: 0 <= p < |rows| ==> rows[p] in ids
    requires SortedByFieldDesc(rows, Reverse(ids))
    ensures rows == ids
  {
    var ranks := RanksOf(ids, rows);
    forall p | 0 <= p < |rows| ensures rows[p] == ids[p] {
      IncreasingAtLeastIndex(ranks, p);
      IncreasingAtMostIndex(ranks, p);
      assert ids[ranks[p]] == rows[p];
    }
  }

  /** Whether a row passes one where term; the platform's own terms are judged by `native`. */
  predicate TermAdmits(t: WhereTerm, row: Value, native: (string, Value) -> bool)
  {
    match t
    case IdIn(_, ids) => row in ids
    case NativeWhere(e) => native(e, row)
  }

  predicate Admits(where: seq<WhereTerm>, row: Value, native: (string, Value) -> bool)
  {
    forall k :: 0 <= k < |where| ==> TermAdmits(where[k], row, native)
  }

  /** The select after afterSetCollection: rewritten for a usable id list, untouched otherwise. */
  function RankedSelect(s: Select, ids: seq<Value>): (r: Select)
    ensures r != s ==> ids != [] && AllScalar(ids)
    ensures |s.where| <= |r.where| <= |s.where| + 1 && r.where[..|s.where|] == s.where
    ensures ids != [] && AllScalar(ids) ==> r.order == [FieldDesc(EntityId, Reverse(ids))]
  {
    if ids != [] && AllScalar(ids) then
      Select([FieldDesc(EntityId, Reverse(ids))], s.where + [IdIn(EntityId, Reverse(ids))])
    else s
  }

  /** An empty or non-scalar id list leaves the select exactly as it was. */
  lemma UnusableIdsLeaveSelect(s: Select, ids: seq<Value>)
    requires ids == [] || exists i :: 0 <= i < |ids| && !IsScalar(ids[i])
    ensures RankedSelect(s, ids) == s
  {
  }

  /** A usable id list replaces the whole ORDER BY and narrows the rows to the existing filter intersected with the ids. */
  lemma RankedSelectRestrictsToIds(s: Select, ids: seq<Value>, row: Value, native: (string, Value) -> bool)
    requires ids != [] && AllScalar(ids)
    ensures RankedSelect(s, ids).order == [FieldDesc(EntityId, Reverse(ids))]
    ensures RankedSelect(s, ids).where[..|s.where|] == s.where
    ensures Admits(RankedSelect(s, ids).where, row, native) <==> Admits(s.where, row, native) && row in ids
  {
    var w := RankedSelect(s, ids).where;
    var rev := Reverse(ids);
    assert row in rev <==> row in ids by {
      if row in ids {
        var i :| 0 <= i < |ids| && ids[i] == row;
        assert rev[|ids| - 1 - i] == row;
      }
    }
    assert w[|s.where|] == IdIn(EntityId, rev);
    if Admits(s.where, row, native) && row in ids {
      forall k | 0 <= k < |w| ensures TermAdmits(w[k], row, native) {
        if k < |s.where| {
          assert w[k] == s.where[k];
        }
      }
    }
    if Admits(w, row, native) {
      assert TermAdmits(w[|s.where|], row, native);
      forall k | 0 <= k < |s.where| ensures TermAdmits(s.where[k], row, native) {
        assert w[k] == s.where[k];
      }
    }
  }

  /** Ranked ids "10", "20", "30" over an unfiltered query: rows 10, 20, 30 only, in that order. */
  lemma ThreeIdScenario(s: Select, row: Value, native: (string, Value) -> bool)
    requires s.where == []
    ensures var ranked := RankedSelect(s, [Str("10"), Str("20"), Str("30")]);
      && ranked.order == [FieldDesc(EntityId, [Str("30"), Str("20"), Str("10")])]
      && (Admits(ranked.where, row, native) <==> row == Str("10") || row == Str("20") || row == Str("30"))
      && Field(Str("10"), [Str("30"), Str("20"), Str("10")]) == 3
      && Field(Str("20"), [Str("30"), Str("20"), Str("10")]) == 2
      && Field(Str("30"), [Str("30"), Str("20"), Str("10")]) == 1
  {
    var ids := [Str("10"), Str("20"), Str("30")];
    var rev := Reverse(ids);
    assert rev[0] == Str("30") && rev[1] == Str("20") && rev[2] == Str("10");
    assert rev == [Str("30"), Str("20"), Str("10")];
    assert AllScalar(ids);
    RankedSelectRestrictsToIds(s, ids, row, native);
    assert Distinct(rev);
    FieldOfDistinct(rev, 0);
    FieldOfDistinct(rev, 1);
    FieldOfDistinct(rev, 2);
  }

  class ProductCollection {
    var select: Select
    const pageSize: Value

    constructor (select: Select, pageSize: Value)
      ensures this.select == select && this.pageSize == pageSize
    {
      this.select := select;
      this.pageSize := pageSize;
    }
  }

  /** The toolbar block; `collection` is null when it is not a product collection. */
  class ToolbarBlock {
    const collection: ProductCollection?

    constructor (collection: ProductCollection?)
      ensures this.collection == collection
    {
      this.collection := collection;
    }
  }

  /** What the plugin reads about the current page. */
  datatype PageContext = PageContext(isMysql: bool, cmpSortOrder: bool, fullActionName: string, currentPage: int)

  predicate IsCategoryPage(ctx: PageContext)
  {
    ctx.fullActionName == "catalog_category_view"
  }

  class ToolbarPlugin {
    /** The static "already processed" flag of the plugin class. */
    var isProcessed: bool
    const facetService: BuildWebFacetService
    const categoryService: StateAwareCategoryService

    ghost predicate Valid()
      reads this, facetService, categoryService
    {
      facetService.Valid() && categoryService.Valid()
    }

    constructor (facetService: BuildWebFacetService, categoryService: StateAwareCategoryService)
      requires facetService.Valid() && categoryService.Valid()
      ensures Valid() && !isProcessed
      ensures this.facetService == facetService && this.categoryService == categoryService
    {
      isProcessed := false;
      this.facetService := facetService;
      this.categoryService := categoryService;
    }

    /** sortByProductIds: the ORDER part is reset and replaced by one FIELD term. */
    method SortByProductIds(collection: ProductCollection, ids: seq<Value>)
      modifies collection
      ensures collection.select == old(collection.select).(order := [FieldDesc(EntityId, ids)])
    {
      collection.select := collection.select.(order := [FieldDesc(EntityId, ids)]);
    }

    /** whereInProductIds: an IN term is appended to the WHERE part. */
    method WhereInProductIds(collection: ProductCollection, ids: seq<Value>)
      modifies collection
      ensures collection.select == old(collection.select).(where := old(collection.select.where) + [IdIn(EntityId, ids)])
    {
      collection.select := collection.select.(where := collection.select.where + [IdIn(EntityId, ids)]);
    }

    /**
     * afterSetCollection: returns the subject and rewrites its collection at
     * most once per pass. Exceptions are caught and logged; a PHP `Error`
     * from facet building escapes, before the processed flag is set.
     */
    method AfterSetCollection(
      subject: ToolbarBlock, ctx: PageContext, items: seq<FilterItem>, categoryName: Value -> CategoryName,
      env: StoreContext, execute: RemoteCall)
      returns (r: Result<ToolbarBlock, FacetError>)
      requires Valid()
      modifies this, facetService, categoryService, if subject.collection == null then {} else {subject.collection}
      ensures Valid()
      ensures r.Ok? ==> r.value == subject
      ensures old(isProcessed) || !ctx.isMysql ==>
        && r == Ok(subject)
        && isProcessed == old(isProcessed)
        && unchanged(facetService, categoryService)
        && (subject.collection != null ==> unchanged(subject.collection))
      ensures !old(isProcessed) && ctx.isMysql ==> (isProcessed <==> r.Ok?)
      ensures !(!old(isProcessed) && ctx.isMysql && ctx.cmpSortOrder && IsCategoryPage(ctx) && subject.collection != null) ==>
        && r == Ok(subject)
        && unchanged(facetService, categoryService)
        && (subject.collection != null ==> unchanged(subject.collection))
      ensures !old(isProcessed) && ctx.isMysql && ctx.cmpSortOrder && IsCategoryPage(ctx) && subject.collection != null ==>
        var populated := Populate(RefreshBrand(old(facetService.brand), facetService.brandAttribute), NoFilters, items, categoryName);
        if populated.failure.Some? && Escapes(populated.failure.value) then
          && r == Err(populated.failure.value)
          && unchanged(categoryService)
          && unchanged(subject.collection)
        else
          var req := CreateRequestParams(env, Facet(populated.filters, NoFilters), Int(ctx.currentPage - 1), subject.collection.pageSize);
          && r == Ok(subject)
          && if req.Ok? && execute(req.value).Ok? then
               && categoryService.events == old(categoryService.events) + [PostResults(execute(req.value).value, SanitizeLimit(subject.collection.pageSize, env.maxLimit), Int(ctx.currentPage - 1))]
               && subject.collection.select == RankedSelect(old(subject.collection.select), execute(req.value).value.productIds)
             else
               && categoryService.events == old(categoryService.events)
               && subject.collection.select == old(subject.collection.select)
    {
      r := Ok(subject);
      if isProcessed || !ctx.isMysql {
        return;
      }
      if ctx.cmpSortOrder && IsCategoryPage(ctx) {
        var collection := subject.collection;
        // A collection of another class raises NotInstanceOfProductCollectionException, which is caught.
        if collection != null {
          var facets := facetService.GetFacets(items, categoryName);
          if facets.Err? {
            return Err(facets.error);
          }
          var result := categoryService.GetPersonalisationResult(facets.value, Int(ctx.currentPage - 1), collection.pageSize, env, execute);
          // A failed request or remote call is caught and logged.
          if result.Ok? {
            var ids := result.value.productIds;
            if ids != [] && AllScalar(ids) {
              var reversed := Reverse(ids);
              SortByProductIds(collection, reversed);
              WhereInProductIds(collection, reversed);
            }
          }
        }
      }
      isProcessed := true;
    }
  }
}
